=== FILE: README.md ===
# echop, modelled in Dafny

echop is a thin convenience layer over the echo web framework and the zap logger. What it
decides for itself is a handful of rules, and those rules are modelled here as pure functions
over plain records:

- **Response envelopes** (`Context`). The `{code, message, data}` envelope is sent with a fixed
  transport status. An empty message falls back to the configured default. The success and fail
  shortcuts inject the configured default codes.
- **Bind and validate** (`Context.BindAndValidate`). This is a two-step pipeline that stops at the
  first error. It keeps a ghost trace of the steps that ran.
- **Handler wrapping and middleware** (`Context.WrapHandlerFunc`, `Echop`). A decorated handler
  becomes a framework handler. `New` installs its middleware list in a fixed order, and routes are
  registered through `Add`, including the `RouteNotFound` sentinel.
- **Correlation id and logging** (`RequestId`, `Logging`). The correlation id is read from the
  request header, with the response header as the fallback. The logger handle is installed lazily.
  One correlation field is appended when a request context is present. The run path gets a trailing
  slash, and the default log file is named from it.
- **Access log** (`Echop`). The severity follows the status band, and the field list is fixed.

The package-level variables (`DefaultResponse*`, `RequestIDConfig.TargetHeader`, `AppName`,
`RouteNotFound`) form the record `Settings.Config`. `Settings.DefaultConfig` holds their initial
values: "echop", 0, 1, "ok", "fail" and "echo_route_not_found". The process-wide `Logger` handle is
the `logger` field of `Logging.State`, where `None` stands for `nil`.

Some other modelling choices:

- **Headers.** Headers are string maps, and a missing header reads as "".
- **Log fields.** zap fields are (key, value) pairs with the value already rendered as a string.
- **The JSON writer.** Each call of the framework's JSON writer appends one `Reply` to a
  `Response`.
- **Log functions.** The four `Log*WithContext` functions differ only in level, so they are one
  function, `Logging.LogWithContext`, with a `Level` argument. Likewise the four context-free
  `Log*` functions are `Logging.LogNoContext`.
- **`GetRequestID`.** logger.go:77 calls `GetRequestID`, but the only definition in the files
  modelled is `GetRequestId` (echoplus.go:68). The model assumes the two are the same lookup and
  uses `RequestId.GetRequestId` for both.

Modules are `Wrappers`, `Framework`, `Settings`, `RequestId`, `Logging`, `Context` and `Echop`.
Each is in its own file, and all files are verified together.

## Model

| member | source | states |
|---|---|---|
| `RequestId.GetRequestId` | echoplus.go:68-74 | the request header's value when it is non-empty, otherwise the response header's. The id is empty exactly when both headers are empty |
| `RequestId.GetRequestIdIgnoresOtherHeaders` | echoplus.go:69-71 | only the header named by `RequestIDConfig.TargetHeader` influences the id, on either side |
| `Logging.GetAppRunPath` | logger.go:40-50 | the run path always ends in '/', starts with the executable's directory, and equals it exactly when that directory already ended in '/'; otherwise it is one character longer |
| `Logging.GetAppRunPathIdempotent` | logger.go:46-48 | normalising a normalised run path changes nothing: a slash is only added when missing |
| `Logging.LogFilePath` | logger.go:62 | the file name begins with the log directory `runPath + ".log"` and a '/', and continues with `AppName + ".log"` |
| `Logging.LogFileInLogDir` | logger.go:53-62 | when `AppName` has no '/', the last '/' of the file name is the one right after the log directory, so the file sits directly in the directory that is created for it |
| `Logging.DefaultLogger` | logger.go:24-26 | the logger `InitLogger(nil)` builds writes to the rotating file `runPath + ".log/" + AppName + ".log"`, with the run path of the executable's directory |
| `Logging.InitLogger` | logger.go:23-30 | a non-nil logger is installed as given; nil installs exactly the default rotating-file logger, which lies inside the log directory; the configuration is left unchanged |
| `Logging.Log` | logger.go:71-80 | the message comes back unchanged and a logger is installed afterwards (the default one if none was). Without a context the fields come back as given. With one, they are the input fields followed by exactly one field: key `TargetHeader`, value the request's correlation id |
| `Logging.LogWithContext` | logger.go:82-116 | the line has the caller's level and message and goes to the installed handle. Its fields are the caller's, plus the correlation field exactly when a context is given |
| `Logging.LogNoContext` | logger.go:118-132 | `LogInfo`, `LogError`, `LogWarn` and `LogDebug` write the caller's fields unchanged and never add a correlation field |
| `Logging.ContextAddsOneCorrelationField` | logger.go:75-78 | a line logged with a context equals the same line logged without one, plus a single final field carrying the configured header name and the correlation id |
| `Logging.LazyInitializationHappensOnce` | logger.go:72-74 | after one logging call the handle is set, so a second call changes no state and writes through the same logger |
| `Logging.FirstLogUsesDefaultFile` | logger.go:71-74 | with no logger installed, logging writes through the default logger on `runPath + ".log/" + AppName + ".log"` |
| `Context.Json` | context.go:49-51 | exactly one reply is written, with the given transport status and the envelope as given; earlier replies are untouched |
| `Context.JsonSuccessWithCode` | context.go:59-69 | the reply has status 200, the caller's code and data, and the caller's message if it is non-empty, otherwise the configured success message |
| `Context.JsonFailWithCode` | context.go:76-85 | the same, with the configured fail message as the default |
| `Context.JsonSuccess` | context.go:54-56 | status 200, code `DefaultResponseSuccessCode`, data as given |
| `Context.JsonFail` | context.go:71-73 | status 200, code `DefaultResponseFailCode`, data as given |
| `Context.ShortcutsUseDefaultCodes` | context.go:53-73 | `JsonSuccess(d, m)` is `JsonSuccessWithCode(DefaultResponseSuccessCode, d, m)`, and `JsonFail(d, m)` is `JsonFailWithCode(DefaultResponseFailCode, d, m)` |
| `Context.FailIsSuccessWithFailMessage` | context.go:59-85 | the fail helper is the success helper with the fail message as the default; the two differ in nothing else |
| `Context.HelpersAreJsonAtStatusOK` | context.go:59-85 | both helpers are the raw `Json` at status 200 applied to the envelope they build, whatever the envelope code is |
| `Context.DefaultMessageIdempotent` | context.go:59-85 | sending the resulting envelope's own code, data and message again reproduces the same reply |
| `Settings.DefaultConfig` | echoplus.go:19-56 | the initial values: `AppName` "echop", success code 0, fail code 1, messages "ok" and "fail", not-found sentinel "echo_route_not_found"; the correlation header is the framework's default |
| `Context.DefaultConfigEnvelopes` | echoplus.go:51-54 | with the initial values, shortcut envelopes always have a non-empty message ("ok" or "fail" when none is given), and success (code 0) is told apart from failure (code 1) |
| `Context.BindAndValidate` | context.go:103-111 | a bind error is returned as it is and validation never runs (trace `[Bind]`). Otherwise the validator's verdict on the bound payload is returned (trace `[Bind, Validate]`). The result is nil exactly when both steps pass. The bound payload is handed back exactly when binding succeeded, so on nil the caller holds a payload that is bound and valid |
| `Context.WrapHandlerFunc` | context.go:43-47 | on a decorated context the framework handler returns exactly what the wrapped handler returns; on any other context the type assertion panics |
| `Context.ContextLog` | context.go:88-100 | the context's `LogInfo`/`LogError`/`LogWarn` always end the line with this request's correlation field, after the caller's fields |
| `Echop.ApplyMiddleware` | echoplus.go:59-66 | one middleware step leaves the context decorated exactly when it was already or the step is the context override; the override keeps the request and response headers |
| `Echop.PassThrough` | echoplus.go:59-66 | after a middleware chain, the context is decorated exactly when it already was or the chain contains the context override |
| `Echop.PassThroughInOrder` | echoplus.go:87-89 | middleware installed by successive `Use` calls run in installation order: the chain `a + b` is `a` followed by `b` |
| `Echop.New` | echoplus.go:82-91 | a new application has no routes, has the validator and the logging error handler installed, and has exactly three middleware: request-id on `TargetHeader`, context override, request logger, in that order |
| `Echop.Add` | echoplus.go:167-169 | one route is appended with the method, the path and the wrapped handler; existing routes, middleware, validator and error handler are unchanged |
| `Echop.RouteNotFound` | echoplus.go:143-145 | one route is appended under the configured sentinel method, with the path and the wrapped handler |
| `Echop.RouteNotFoundIsAdd` | echoplus.go:55 | `RouteNotFound(p, h)` is `Add(RouteNotFound, p, h)`, and the sentinel starts out as "echo_route_not_found" |
| `Echop.NewAppHandlersNeverPanic` | echoplus.go:87-89 | on a new application every raw context reaches a registered handler decorated, so the wrapped handler returns the user handler's result and never panics |
| `Echop.SeverityFor` | echoplus.go:32-38 | error exactly when status ≥ 500, warn exactly when 400 ≤ status < 500, info exactly when status < 400 |
| `Echop.SeverityMonotone` | echoplus.go:32-38 | a higher status never gets a lower severity |
| `Echop.AccessFieldsAsWritten` | echoplus.go:41-46 | the access fields as written, in order: request_id (the correlation id), the URI under "method", the method under "method", remote_ip, host, latency |
| `Echop.AsWrittenUriShadowsMethod` | echoplus.go:42-43 | as written, the access-log keys are not distinct and there is no "uri" key; whenever URI and method differ, neither can be read back unambiguously from "method" |
| `Echop.AsWrittenExample` | echoplus.go:42-43 | for `GET /users` the line carries method=/users and method=GET |
| `Echop.AccessFields` | echoplus.go:41-46 | the corrected fields, in the source's order with the URI under "uri". The keys are pairwise distinct, so each collected value is recovered from its key |
| `Echop.AccessLog` | echoplus.go:30-49 | one line "request" at the severity of the status band. It has seven fields: the six access fields as the source writes them (the URI under "method"), then the correlation field the logging facade appends |
| `Echop.AccessLogCorrelation` | echoplus.go:39-47 | the request id is on the line twice, first as "request_id" and last under the configured header name. The keys of the line are never distinct, because "method" appears twice |
| `Echop.AccessLogCorrected` | echoplus.go:30-49 | the callback with the corrected fields (URI under "uri"): same severity, message and correlation field |
| `Echop.AccessLogCorrectedKeys` | echoplus.go:42 | the corrected line differs from the written one only in the URI field's key. With a header name outside the six access keys, all seven of its keys are distinct |
| `Echop.DefaultHTTPErrorHandler` | echoplus.go:93-105 | the error is logged at error severity as "http error handler", with fields ("error", message) and the correlation field, before the framework renders it |

## Left out

- group.go and group_fs.go: each method forwards to the framework's group method of the same name. The methods that take a `HandlerFunc` wrap it first with `WrapHandlerFunc`, as `Add` does. `Use`, `Group`, `File`, `Static`, `StaticFS` and `FileFS` take no handler and wrap nothing. None of them has logic of its own.
- validator.go: the struct validator and its mapping to a 400 error appear only as the abstract `validate` step of `BindAndValidate`.
- The per-verb registrations (`CONNECT` … `TRACE`), `Any`, `Match`, `URI` and `URL` in echoplus.go: they forward to the framework's function of the same name after `WrapHandlerFunc`. `Group` (echoplus.go:155-157) takes no handler. It forwards `prefix` and `m` to the framework and wraps the resulting group in echop's own `Group`, whose handler-taking methods are covered by the group.go line above. The framework's routing is not part of this model.
- Route-level middleware arguments (`m ...`): they are passed through to the framework unchanged.
- The framework's binder, router, JSON serialiser (including `omitempty` rendering), default error renderer and the error `Json` may return from the serialiser. These are foreign code; every write is modelled as succeeding.
- The framework's request-id middleware (id generation, setting the response header) and its request-logger middleware: `PassThrough` models only the context override and passes the context through the other two unchanged.
- Echop.PassThrough: promises only whether the context is decorated, not what the chain does to headers, because the framework's request-id middleware sets the response header and is not modelled.
- Echop.NewAppHandlersNeverPanic: promises that the handler sees a decorated context, not that its headers equal the incoming ones, for the same reason.
- Context.BindAndValidate: when binding fails, the framework's binder may already have written part of the request into the caller's payload. The model hands back no payload on that path, so this partial write is not modelled.
- Logging.Log: with a context, the correlation field is appended to the caller's own slice (the source does not copy it), so when that slice has spare capacity the field is written into the caller's backing array, and a slice shared between concurrent requests races. Sequences have value semantics here, so this aliasing is not modelled.
- The framework's default correlation header name: `DefaultConfig` takes it as a parameter.
- `RequestLoggerConfig`'s `Log*` selection flags: all six values are taken as collected.
- `Latency.String()` formatting: the latency is carried as an already rendered string.
- zap's encoder, levels and output, and lumberjack's rotation settings (size 10, 90 backups, 90 days, no compression): these belong to third-party libraries.
- `os.Executable`, `filepath.Dir`, `os.Stat`, `os.Mkdir` and `syslog.Fatal`. The executable's directory is an input of the state (`exeDir`, never empty, as `filepath.Dir` never returns ""); the failure paths that panic or exit are not modelled.
- Header name canonicalisation and multi-valued headers: a header is one string under one name.
- The race on lazy logger initialisation and the shared mutable globals: the model is sequential, with the globals as an explicit state record.
- `Context.ContextLog`: it requires a level other than debug, because the decorated context offers no debug shortcut.

## Findings

| source | as written | input that shows it | evidently intended | confidence | as-written member | corrected member |
|---|---|---|---|---|---|---|
| echoplus.go:42 | the request URI is logged under the key "method", the same key as the HTTP method on the next line | any request whose URI differs from its method, e.g. `GET /users`: the line carries method=/users and method=GET, and no "uri" key | the URI under the key "uri" (the logger is configured to collect the URI) | high; not executed | `Echop.AsWrittenUriShadowsMethod` | `Echop.AccessFields` |

=== FILE: context.dfy ===
/** The decorated request context: JSON envelope helpers, the combined
    bind-and-validate step, request-scoped logging shortcuts and the
    adaptation of decorated handlers to the framework's handler type. */
module Context {
  import opened Wrappers
  import opened Framework
  import opened Settings
  import opened Logging

  /** An untyped (`any`) envelope value: nil, an integer, a string, or some
      other payload known only by identity. */
  datatype Value = Null | Int(i: int) | Str(s: string) | Other(id: nat)

  /** `JSONResponse`, the standard `{code, message, data}` envelope. */
  datatype JsonResponse = JsonResponse(code: Value, message: string, data: Value)

  /** One call of the framework's JSON writer: transport status and body. */
  datatype Reply = Reply(status: int, body: JsonResponse)

  /** The replies written so far on a request's response, oldest first.
      Writing twice is not guarded against, so this is a sequence. */
  datatype Response = Response(sent: seq<Reply>)

  /** `r'` is `r` with exactly one more reply, earlier replies untouched. */
  predicate AppendsOne(r: Response, r': Response)
  {
    |r'.sent| == |r.sent| + 1 && r'.sent[..|r.sent|] == r.sent
  }

  function LastReply(r: Response): Reply
    requires |r.sent| > 0
  {
    r.sent[|r.sent| - 1]
  }

  /** `Json`: hands the transport status and the envelope to the framework's
      JSON writer as they are. */
  function Json(r: Response, httpCode: int, resp: JsonResponse): (r': Response)
    ensures AppendsOne(r, r')
    ensures LastReply(r').status == httpCode && LastReply(r').body == resp
  {
    Response(r.sent + [Reply(httpCode, resp)])
  }

  /** `JsonSuccessWithCode`: status 200, the caller's code and data, and the
      caller's message unless it is empty, in which case the configured
      success message. */
  function JsonSuccessWithCode(cfg: Config, r: Response, code: Value, data: Value, msg: string): (r': Response)
    ensures AppendsOne(r, r')
    ensures LastReply(r').status == StatusOK
    ensures LastReply(r').body.code == code && LastReply(r').body.data == data
    ensures msg != "" ==> LastReply(r').body.message == msg
    ensures msg == "" ==> LastReply(r').body.message == cfg.successMsg
  {
    var message := if msg == "" then cfg.successMsg else msg;
    Json(r, StatusOK, JsonResponse(code, message, data))
  }

  /** `JsonFailWithCode`: as the success variant, with the configured fail
      message as the default. */
  function JsonFailWithCode(cfg: Config, r: Response, code: Value, data: Value, msg: string): (r': Response)
    ensures AppendsOne(r, r')
    ensures LastReply(r').status == StatusOK
    ensures LastReply(r').body.code == code && LastReply(r').body.data == data
    ensures msg != "" ==> LastReply(r').body.message == msg
    ensures msg == "" ==> LastReply(r').body.message == cfg.failMsg
  {
    var message := if msg == "" then cfg.failMsg else msg;
    Json(r, StatusOK, JsonResponse(code, message, data))
  }

  /** `JsonSuccess`: the envelope code is the configured success code. */
  function JsonSuccess(cfg: Config, r: Response, data: Value, msg: string): (r': Response)
    ensures AppendsOne(r, r')
    ensures LastReply(r').status == StatusOK
    ensures LastReply(r').body.code == Int(cfg.successCode) && LastReply(r').body.data == data
  {
    JsonSuccessWithCode(cfg, r, Int(cfg.successCode), data, msg)
  }

  /** `JsonFail`: the envelope code is the configured fail code. */
  function JsonFail(cfg: Config, r: Response, data: Value, msg: string): (r': Response)
    ensures AppendsOne(r, r')
    ensures LastReply(r').status == StatusOK
    ensures LastReply(r').body.code == Int(cfg.failCode) && LastReply(r').body.data == data
  {
    JsonFailWithCode(cfg, r, Int(cfg.failCode), data, msg)
  }

  /** The shortcuts are exactly the explicit-code helpers applied to the
      configured default codes. */
  lemma ShortcutsUseDefaultCodes(cfg: Config, r: Response, data: Value, msg: string)
    ensures JsonSuccess(cfg, r, data, msg) == JsonSuccessWithCode(cfg, r, Int(cfg.successCode), data, msg)
    ensures JsonFail(cfg, r, data, msg) == JsonFailWithCode(cfg, r, Int(cfg.failCode), data, msg)
  {
  }

  /** Success and fail helpers differ only in which default message they
      fall back to. */
  lemma FailIsSuccessWithFailMessage(cfg: Config, r: Response, code: Value, data: Value, msg: string)
    ensures JsonFailWithCode(cfg, r, code, data, msg)
            == JsonSuccessWithCode(cfg.(successMsg := cfg.failMsg), r, code, data, msg)
  {
  }

  /** Every helper equals the raw `Json` at status 200 with the envelope it
      built; in particular the envelope code never affects the status. */
  lemma HelpersAreJsonAtStatusOK(cfg: Config, r: Response, code: Value, data: Value, msg: string)
    ensures var s := JsonSuccessWithCode(cfg, r, code, data, msg);
            s == Json(r, StatusOK, LastReply(s).body)
    ensures var f := JsonFailWithCode(cfg, r, code, data, msg);
            f == Json(r, StatusOK, LastReply(f).body)
  {
  }

  /** Defaulting the message is idempotent: sending again the envelope's own
      code, data and message reproduces the same reply. */
  lemma DefaultMessageIdempotent(cfg: Config, r: Response, code: Value, data: Value, msg: string)
    ensures var b := LastReply(JsonSuccessWithCode(cfg, r, code, data, msg)).body;
            JsonSuccessWithCode(cfg, r, b.code, b.data, b.message) == JsonSuccessWithCode(cfg, r, code, data, msg)
    ensures var b := LastReply(JsonFailWithCode(cfg, r, code, data, msg)).body;
            JsonFailWithCode(cfg, r, b.code, b.data, b.message) == JsonFailWithCode(cfg, r, code, data, msg)
  {
  }

  /** Under the initial configuration, every envelope the shortcuts send has
      a non-empty message, and success and failure are told apart by code. */
  lemma DefaultConfigEnvelopes(h: string, r: Response, d1: Value, m1: string, d2: Value, m2: string)
    ensures var s := LastReply(JsonSuccess(DefaultConfig(h), r, d1, m1)).body;
            var f := LastReply(JsonFail(DefaultConfig(h), r, d2, m2)).body;
            s.message != "" && f.message != "" && s.code == Int(0) && f.code == Int(1) && s.code != f.code
    ensures m1 == "" ==> LastReply(JsonSuccess(DefaultConfig(h), r, d1, m1)).body.message == "ok"
    ensures m2 == "" ==> LastReply(JsonFail(DefaultConfig(h), r, d2, m2)).body.message == "fail"
  {
  }

  /** The steps `BindAndValidate` performs, for the ghost trace. */
  datatype Step = Bind | Validate

  /** `BindAndValidate`: binds the request into the payload, and only when
      that succeeds validates the bound payload. The first error is
      returned (None is `nil`); `bound` is the payload the caller holds
      afterwards when binding succeeded; the trace records which steps ran. */
  method BindAndValidate<P, E>(payload: P, bind: P -> Result<P, E>, validate: P -> Option<E>)
    returns (err: Option<E>, bound: Option<P>, ghost trace: seq<Step>)
    ensures bound.Some? <==> bind(payload).Ok?
    ensures bound.Some? ==> bound.value == bind(payload).value
    ensures err.None? ==> bound.Some? && validate(bound.value).None?
    ensures bind(payload).Err? ==> err == Some(bind(payload).error)
    ensures bind(payload).Ok? ==> err == validate(bind(payload).value)
    ensures err.None? <==> bind(payload).Ok? && validate(bind(payload).value).None?
    ensures trace == if bind(payload).Err? then [Bind] else [Bind, Validate]
  {
    trace := [Bind];
    var bindResult := bind(payload);
    if bindResult.Err? {
      return Some(bindResult.error), None, trace;
    }
    bound := Some(bindResult.value);
    trace := trace + [Validate];
    var invalid := validate(bindResult.value);
    if invalid.Some? {
      return invalid, bound, trace;
    }
    return None, bound, trace;
  }

  /** A handler written against the decorated context. */
  type HandlerFunc = EchoContext -> Option<HandlerError>

  /** What a framework-level handler does: return an error (or nil), or panic. */
  datatype HandlerOutcome = Returned(err: Option<HandlerError>) | Panicked

  /** `WrapHandlerFunc`: the framework handler asserts that its context is
      the decorated one (a failed Go type assertion panics) and then returns
      exactly what the wrapped handler returns. */
  function WrapHandlerFunc(h: HandlerFunc): (w: EchoContext -> HandlerOutcome)
    ensures forall c: EchoContext :: c.decorated ==> w(c) == Returned(h(c))
    ensures forall c: EchoContext :: !c.decorated ==> w(c).Panicked?
  {
    (c: EchoContext) => if c.decorated then Returned(h(c)) else Panicked
  }

  /** The context's `LogInfo`, `LogError` and `LogWarn`: the logging
      facade's context variants, always with this request's context, so the
      line always ends with its correlation id. */
  function ContextLog(st: State, level: Level, c: EchoContext, msg: string, fields: seq<Field>): (r: Logged)
    requires level != Debug
    ensures r.entry.level == level && r.entry.msg == msg
    ensures |r.entry.fields| == |fields| + 1 && r.entry.fields[..|fields|] == fields
    ensures r.entry.fields[|fields|] == CorrelationField(st.cfg, c)
  {
    LogWithContext(st, level, Some(c), msg, fields)
  }
}

=== FILE: echop.dfy ===
/** The application wrapper: default middleware, route registration with
    decorated handlers, the access-log callback and the error handler. */
module Echop {
  import opened Wrappers
  import opened Framework
  import opened Settings
  import opened RequestId
  import opened Logging
  import opened Context

  /** The middleware `New` installs. Only the effect of context
      substitution is modelled; the framework's own request-id and
      request-logger middleware pass the context on as it is here. */
  datatype Middleware = RequestID(targetHeader: string) | OverrideContext | RequestLogger

  /** One middleware applied to the context it receives: `OverrideContext`
      replaces the context by the decorated one. */
  function ApplyMiddleware(m: Middleware, c: EchoContext): (c': EchoContext)
    ensures c'.decorated <==> c.decorated || m == OverrideContext
    ensures m == OverrideContext ==> c'.request == c.request && c'.response == c.response
  {
    if m == OverrideContext then c.(decorated := true) else c
  }

  /** The context a handler receives after the chain `ms`, applied in the
      order the middleware were installed. It is decorated exactly when the
      incoming context already was or the chain substitutes it. */
  function PassThrough(ms: seq<Middleware>, c: EchoContext): (c': EchoContext)
    ensures c'.decorated <==> c.decorated || OverrideContext in ms
    decreases |ms|
  {
    if |ms| == 0 then c else PassThrough(ms[1..], ApplyMiddleware(ms[0], c))
  }

  /** Installing middleware one `Use` after another runs them in
      installation order: the chain `a + b` is `a` followed by `b`. */
  lemma {:induction false} PassThroughInOrder(a: seq<Middleware>, b: seq<Middleware>, c: EchoContext)
    ensures PassThrough(a + b, c) == PassThrough(b, PassThrough(a, c))
    decreases |a|
  {
    if |a| == 0 {
      assert a + b == b;
    } else {
      assert (a + b)[0] == a[0] && (a + b)[1..] == a[1..] + b;
      PassThroughInOrder(a[1..], b, ApplyMiddleware(a[0], c));
    }
  }

  datatype ValidatorKind = NoValidator | StructValidator
  datatype ErrorHandlerKind = FrameworkDefault | LogThenRender

  /** A registered route: method name, path and framework-level handler. */
  datatype Route = Route(httpMethod: string, path: string, handler: EchoContext -> HandlerOutcome)

  /** The application: installed middleware (in order), registered routes,
      validator and error handler. */
  datatype App = App(middleware: seq<Middleware>, routes: seq<Route>,
                     validator: ValidatorKind, errorHandler: ErrorHandlerKind)

  /** `New`: a fresh application with the struct validator, the logging error
      handler, and middleware request-id, context override, request logger
      in this order. */
  function New(cfg: Config): (app: App)
    ensures |app.middleware| == 3
    ensures app.middleware[0] == RequestID(cfg.targetHeader)
    ensures app.middleware[1] == OverrideContext
    ensures app.middleware[2] == RequestLogger
    ensures app.routes == []
    ensures app.validator == StructValidator && app.errorHandler == LogThenRender
  {
    App([RequestID(cfg.targetHeader), OverrideContext, RequestLogger], [], StructValidator, LogThenRender)
  }

  /** `Add`: registers the wrapped handler under `httpMethod` and `path`;
      existing routes and the rest of the application are unchanged. */
  function Add(app: App, httpMethod: string, path: string, h: HandlerFunc): (app': App)
    ensures |app'.routes| == |app.routes| + 1 && app'.routes[..|app.routes|] == app.routes
    ensures app'.routes[|app.routes|].httpMethod == httpMethod && app'.routes[|app.routes|].path == path
    ensures app'.routes[|app.routes|].handler == WrapHandlerFunc(h)
    ensures app'.middleware == app.middleware
    ensures app'.validator == app.validator && app'.errorHandler == app.errorHandler
  {
    app.(routes := app.routes + [Route(httpMethod, path, WrapHandlerFunc(h))])
  }

  /** `RouteNotFound`: registers under the configured sentinel method name. */
  function RouteNotFound(cfg: Config, app: App, path: string, h: HandlerFunc): (app': App)
    ensures |app'.routes| == |app.routes| + 1 && app'.routes[..|app.routes|] == app.routes
    ensures app'.routes[|app.routes|].httpMethod == cfg.routeNotFound
    ensures app'.routes[|app.routes|].path == path
    ensures app'.routes[|app.routes|].handler == WrapHandlerFunc(h)
  {
    Add(app, cfg.routeNotFound, path, h)
  }

  /** `RouteNotFound(p, h)` is `Add` with the sentinel, which is
      "echo_route_not_found" unless reconfigured. */
  lemma RouteNotFoundIsAdd(cfg: Config, app: App, path: string, h: HandlerFunc)
    ensures RouteNotFound(cfg, app, path, h) == Add(app, cfg.routeNotFound, path, h)
    ensures RouteNotFound(DefaultConfig(cfg.targetHeader), app, path, h)
            == Add(app, "echo_route_not_found", path, h)
  {
  }

  /** A handler registered on a new application never meets an undecorated
      context: whatever raw context the framework passes in, the middleware
      chain decorates it, and the wrapped handler returns exactly what the
      user handler returns for the context it is handed. */
  lemma NewAppHandlersNeverPanic(cfg: Config, httpMethod: string, path: string, h: HandlerFunc, c: EchoContext)
    ensures var app := Add(New(cfg), httpMethod, path, h);
            var seen := PassThrough(app.middleware, c);
            seen.decorated &&
            app.routes[0].handler(seen) == Returned(h(seen))
  {
  }

  /** The severity of an access-log line, chosen from the status band. */
  function SeverityFor(status: int): (l: Level)
    ensures l == Error <==> status >= 500
    ensures l == Warn <==> 400 <= status < 500
    ensures l == Info <==> status < 400
  {
    if status >= 500 then Error else if status >= 400 then Warn else Info
  }

  function Rank(l: Level): nat
  {
    match l
    case Debug => 0
    case Info => 1
    case Warn => 2
    case Error => 3
  }

  /** A higher status never yields a lower severity. */
  lemma SeverityMonotone(s1: int, s2: int)
    requires s1 <= s2
    ensures Rank(SeverityFor(s1)) <= Rank(SeverityFor(s2))
  {
  }

  /** The values the request logger collects; the latency is kept in its
      rendered form. */
  datatype RequestValues = RequestValues(status: int, uri: string, httpMethod: string,
                                         remoteIp: string, host: string, latency: string)

  function Keys(fs: seq<Field>): (ks: seq<string>)
    ensures |ks| == |fs|
    ensures forall i :: 0 <= i < |fs| ==> ks[i] == fs[i].key
  {
    seq(|fs|, i requires 0 <= i < |fs| => fs[i].key)
  }

  /** No two fields share a key. */
  predicate DistinctKeys(fs: seq<Field>)
  {
    forall i, j :: 0 <= i < j < |fs| ==> fs[i].key != fs[j].key
  }

  /** Key `k` is present, and every field under it carries `v`: a reader of
      the line recovers `v` from `k` whichever duplicate it keeps. */
  predicate Unambiguous(fs: seq<Field>, k: string, v: string)
  {
    (exists i :: 0 <= i < |fs| && fs[i].key == k) &&
    forall i :: 0 <= i < |fs| && fs[i].key == k ==> fs[i].value == v
  }

  const AccessKeys: seq<string> := ["request_id", "uri", "method", "remote_ip", "host", "latency"]

  /** The access-log fields as the source writes them: the URI goes under
      the key "method", the same key the method goes under. */
  function AccessFieldsAsWritten(cfg: Config, c: EchoContext, v: RequestValues): (fs: seq<Field>)
    ensures Keys(fs) == ["request_id", "method", "method", "remote_ip", "host", "latency"]
    ensures fs[0].value == GetRequestId(cfg, c) && fs[1].value == v.uri && fs[2].value == v.httpMethod
    ensures fs[3].value == v.remoteIp && fs[4].value == v.host && fs[5].value == v.latency
  {
    [Field("request_id", GetRequestId(cfg, c)), Field("method", v.uri), Field("method", v.httpMethod),
     Field("remote_ip", v.remoteIp), Field("host", v.host), Field("latency", v.latency)]
  }

  /** As written, the line has no "uri" key and, whenever the URI differs
      from the method, neither of them can be read back from "method". */
  lemma AsWrittenUriShadowsMethod(cfg: Config, c: EchoContext, v: RequestValues)
    requires v.uri != v.httpMethod
    ensures var fs := AccessFieldsAsWritten(cfg, c, v);
            !DistinctKeys(fs) &&
            (forall i :: 0 <= i < |fs| ==> fs[i].key != "uri") &&
            !Unambiguous(fs, "method", v.httpMethod) && !Unambiguous(fs, "method", v.uri)
  {
  }

  /** A concrete line that shows the collision: `GET /users`. */
  lemma AsWrittenExample(cfg: Config, c: EchoContext)
    ensures var fs := AccessFieldsAsWritten(cfg, c, RequestValues(200, "/users", "GET", "10.0.0.1", "example.org", "1ms"));
            fs[1] == Field("method", "/users") && fs[2] == Field("method", "GET")
  {
  }

  /** The access-log fields with the URI under "uri": in the source's order,
      with pairwise distinct keys, so each value is read back from its key. */
  function AccessFields(cfg: Config, c: EchoContext, v: RequestValues): (fs: seq<Field>)
    ensures Keys(fs) == AccessKeys
    ensures DistinctKeys(fs)
    ensures Unambiguous(fs, "request_id", GetRequestId(cfg, c)) && Unambiguous(fs, "uri", v.uri)
    ensures Unambiguous(fs, "method", v.httpMethod) && Unambiguous(fs, "remote_ip", v.remoteIp)
    ensures Unambiguous(fs, "host", v.host) && Unambiguous(fs, "latency", v.latency)
  {
    var fs := [Field("request_id", GetRequestId(cfg, c)), Field("uri", v.uri), Field("method", v.httpMethod),
               Field("remote_ip", v.remoteIp), Field("host", v.host), Field("latency", v.latency)];
    assert fs[0].key == "request_id" && fs[1].key == "uri" && fs[2].key == "method";
    assert fs[3].key == "remote_ip" && fs[4].key == "host" && fs[5].key == "latency";
    fs
  }

  /** The request logger's callback: one line "request" at the severity of
      the status band, with the access fields as the source writes them
      followed by the correlation field the facade appends; the callback
      itself never fails. */
  function AccessLog(st: State, c: EchoContext, v: RequestValues): (r: Logged)
    ensures r.entry.level == SeverityFor(v.status) && r.entry.msg == "request"
    ensures |r.entry.fields| == 7
    ensures r.entry.fields[..6] == AccessFieldsAsWritten(st.cfg, c, v)
    ensures r.entry.fields[6] == CorrelationField(st.cfg, c)
  {
    LogWithContext(st, SeverityFor(v.status), Some(c), "request", AccessFieldsAsWritten(st.cfg, c, v))
  }

  /** The request id is on an access-log line twice: as "request_id" first,
      and under the configured header name last. The line's keys are never
      distinct: "method" always appears twice. */
  lemma AccessLogCorrelation(st: State, c: EchoContext, v: RequestValues)
    ensures var fs := AccessLog(st, c, v).entry.fields;
            fs[0] == Field("request_id", GetRequestId(st.cfg, c)) &&
            fs[6] == Field(st.cfg.targetHeader, GetRequestId(st.cfg, c))
    ensures var fs := AccessLog(st, c, v).entry.fields;
            fs[1].key == "method" && fs[2].key == "method" && !DistinctKeys(fs)
  {
  }

  /** The callback with the corrected field list, the URI under "uri". */
  function AccessLogCorrected(st: State, c: EchoContext, v: RequestValues): (r: Logged)
    ensures r.entry.level == SeverityFor(v.status) && r.entry.msg == "request"
    ensures |r.entry.fields| == 7
    ensures r.entry.fields[..6] == AccessFields(st.cfg, c, v)
    ensures r.entry.fields[6] == CorrelationField(st.cfg, c)
  {
    LogWithContext(st, SeverityFor(v.status), Some(c), "request", AccessFields(st.cfg, c, v))
  }

  /** The corrected line differs from the written one only in the key of the
      URI field; with a header name other than the six access keys, all seven
      of its keys are distinct. */
  lemma AccessLogCorrectedKeys(st: State, c: EchoContext, v: RequestValues)
    ensures var fixed := AccessLogCorrected(st, c, v);
            var written := AccessLog(st, c, v);
            fixed.state == written.state && fixed.entry.level == written.entry.level &&
            fixed.entry.fields[1] == Field("uri", v.uri) &&
            fixed.entry.fields == written.entry.fields[1 := Field("uri", v.uri)]
    ensures st.cfg.targetHeader !in AccessKeys ==> DistinctKeys(AccessLogCorrected(st, c, v).entry.fields)
  {
  }

  /** The application's error handler: logs "http error handler" at error
      severity with the error and the correlation id, before the framework
      renders the error. */
  function DefaultHTTPErrorHandler(st: State, err: HandlerError, c: EchoContext): (r: Logged)
    ensures r.entry.level == Error && r.entry.msg == "http error handler"
    ensures r.entry.fields == [Field("error", err.message), CorrelationField(st.cfg, c)]
    ensures st.logger.Some? ==> r.state == st
  {
    LogWithContext(st, Error, Some(c), "http error handler", [Field("error", err.message)])
  }
}

=== FILE: framework.dfy ===
/** The parts of the wrapped web framework and logging library that this
    package reads or produces, reduced to plain records. */
module Framework {

  /** HTTP headers, one value per (already canonical) header name. */
  type Headers = map<string, string>

  /** `http.Header.Get`: the value stored under `key`, or "" when absent. */
  function HeaderGet(h: Headers, key: string): string
  {
    if key in h then h[key] else ""
  }

  /** A request context as the framework hands it to middleware and
      handlers: the request and response headers, and whether it has already
      been replaced by this package's decorated context. */
  datatype EchoContext = EchoContext(request: Headers, response: Headers, decorated: bool)

  /** A Go `error`, seen only through its message. */
  datatype HandlerError = HandlerError(message: string)

  /** A structured log field; values are kept in their rendered string form. */
  datatype Field = Field(key: string, value: string)

  /** `http.StatusOK`. */
  const StatusOK: int := 200
}

=== FILE: logging.dfy ===
/** The logging facade: a process-wide logger handle that is installed
    lazily, the run path the default log file lives under, and the
    correlation field attached to every line logged for a request. */
module Logging {
  import opened Wrappers
  import opened Framework
  import opened Settings
  import opened RequestId

  datatype Level = Debug | Info | Warn | Error

  /** A logger handle: one supplied by the embedding program, or the default
      JSON logger writing to a rotating file with the given name. */
  datatype ZapLogger = Given(id: nat) | RotatingFile(filename: string)

  /** `filepath.Dir` of the running executable; never empty. */
  type ExeDir = s: string | |s| > 0 witness "."

  /** The sequential state the facade reads and writes: the package
      variables, the `Logger` handle (None is `nil`) and the directory of the
      executable. */
  datatype State = State(cfg: Config, logger: Option<ZapLogger>, exeDir: ExeDir)

  /** What the logger receives: the request context is optional. */
  datatype LoggerFields = LoggerFields(msg: string, fields: seq<Field>, c: Option<EchoContext>)

  /** The message and fields `log` hands back, with the state after it. */
  datatype Prepared = Prepared(state: State, msg: string, fields: seq<Field>)

  /** One line written to the logger handle. */
  datatype LogEntry = LogEntry(logger: ZapLogger, level: Level, msg: string, fields: seq<Field>)

  datatype Logged = Logged(state: State, entry: LogEntry)

  predicate EndsWithSlash(s: string)
  {
    |s| > 0 && s[|s| - 1] == '/'
  }

  /** The directory the executable runs in, with a trailing slash added only
      when it is missing. */
  function GetAppRunPath(dir: ExeDir): (runPath: string)
    ensures EndsWithSlash(runPath)
    ensures dir <= runPath
    ensures EndsWithSlash(dir) <==> runPath == dir
    ensures !EndsWithSlash(dir) ==> |runPath| == |dir| + 1
  {
    if dir[|dir| - 1..] != "/" then dir + "/" else dir
  }

  /** Normalising an already normalised run path changes nothing. */
  lemma GetAppRunPathIdempotent(dir: ExeDir)
    ensures GetAppRunPath(GetAppRunPath(dir)) == GetAppRunPath(dir)
  {
  }

  /** The hidden directory created beside the executable for log files. */
  function LogDir(runPath: string): string
  {
    runPath + ".log"
  }

  /** Index of the last '/' in `p`, or -1 when there is none. */
  function LastSlash(p: string): (i: int)
    ensures -1 <= i < |p|
    ensures i >= 0 ==> p[i] == '/'
    ensures forall j :: i < j < |p| ==> p[j] != '/'
    decreases |p|
  {
    if |p| == 0 then -1
    else if p[|p| - 1] == '/' then |p| - 1
    else LastSlash(p[..|p| - 1])
  }

  /** The name of the rotating log file: inside the log directory, named
      after the application with a ".log" suffix. */
  function LogFilePath(runPath: string, appName: string): (path: string)
    ensures LogDir(runPath) + "/" <= path
    ensures |path| == |LogDir(runPath)| + 1 + |appName| + 4
    ensures path[|LogDir(runPath)| + 1..] == appName + ".log"
  {
    runPath + ".log/" + appName + ".log"
  }

  /** When the application name holds no '/', the log file sits directly in
      the log directory that is created for it, and not in a subdirectory. */
  lemma {:induction false} LogFileInLogDir(runPath: string, appName: string)
    requires forall k :: 0 <= k < |appName| ==> appName[k] != '/'
    ensures LastSlash(LogFilePath(runPath, appName)) == |LogDir(runPath)|
    ensures LogFilePath(runPath, appName)[..LastSlash(LogFilePath(runPath, appName))] == LogDir(runPath)
  {
    var path := LogFilePath(runPath, appName);
    var d := |LogDir(runPath)|;
    assert path[d] == '/';
    forall j | d < j < |path|
      ensures path[j] != '/'
    {
      var tail := appName + ".log";
      assert path[j] == tail[j - d - 1];
      if j - d - 1 >= |appName| {
        assert tail[j - d - 1] == ".log"[j - d - 1 - |appName|];
      }
    }
  }

  /** The default logger, as `InitLogger(nil)` builds it from the current
      state. */
  function DefaultLogger(st: State): (l: ZapLogger)
    ensures l == RotatingFile(GetAppRunPath(st.exeDir) + ".log/" + st.cfg.appName + ".log")
  {
    RotatingFile(LogFilePath(GetAppRunPath(st.exeDir), st.cfg.appName))
  }

  /** Installs `l`, or the default file logger when `l` is nil. Nothing else
      in the state changes. */
  function InitLogger(st: State, l: Option<ZapLogger>): (st': State)
    ensures st'.logger.Some?
    ensures l.Some? ==> st'.logger == l
    ensures l.None? ==> st'.logger == Some(DefaultLogger(st))
    ensures l.None? ==> st'.logger.value.RotatingFile?
    ensures l.None? ==> LogDir(GetAppRunPath(st.exeDir)) + "/" <= st'.logger.value.filename
    ensures st'.cfg == st.cfg && st'.exeDir == st.exeDir
  {
    match l
    case Some(given) => st.(logger := Some(given))
    case None => st.(logger := Some(DefaultLogger(st)))
  }

  /** The field carrying the correlation id of request `c`. */
  function CorrelationField(cfg: Config, c: EchoContext): Field
  {
    Field(cfg.targetHeader, GetRequestId(cfg, c))
  }

  /** `log`: makes sure a logger is installed, returns the message as given,
      and appends the correlation field exactly when a context is present.
      The correlation lookup is the one of `GetRequestId`. */
  function Log(st: State, info: LoggerFields): (p: Prepared)
    ensures p.msg == info.msg
    ensures p.state.logger.Some?
    ensures st.logger.Some? ==> p.state == st
    ensures st.logger.None? ==> p.state == InitLogger(st, None)
    ensures info.c.None? ==> p.fields == info.fields
    ensures info.c.Some? ==> |p.fields| == |info.fields| + 1
    ensures info.c.Some? ==> p.fields[..|info.fields|] == info.fields
    ensures info.c.Some? ==> p.fields[|info.fields|].key == st.cfg.targetHeader
    ensures info.c.Some? ==> p.fields[|info.fields|].value == GetRequestId(st.cfg, info.c.value)
  {
    var st' := if st.logger.None? then InitLogger(st, None) else st;
    var fields := info.fields;
    var fields' := if info.c.Some? then fields + [CorrelationField(st.cfg, info.c.value)] else fields;
    Prepared(st', info.msg, fields')
  }

  /** `LogInfoWithContext`, `LogErrorWithContext`, `LogWarnWithContext` and
      `LogDebugWithContext`, one per level: run `log` and write its message
      and fields to the (possibly just installed) logger. */
  function LogWithContext(st: State, level: Level, c: Option<EchoContext>, msg: string, fields: seq<Field>)
    : (r: Logged)
    ensures r.entry.level == level && r.entry.msg == msg
    ensures r.state.logger == Some(r.entry.logger)
    ensures st.logger.Some? ==> r.state == st
    ensures r.state.cfg == st.cfg && r.state.exeDir == st.exeDir
    ensures c.None? ==> r.entry.fields == fields
    ensures c.Some? ==> r.entry.fields == fields + [CorrelationField(st.cfg, c.value)]
  {
    var p := Log(st, LoggerFields(msg, fields, c));
    Logged(p.state, LogEntry(p.state.logger.value, level, p.msg, p.fields))
  }

  /** `LogInfo`, `LogError`, `LogWarn` and `LogDebug`: the context variants
      with a nil context, so no correlation field is ever added. */
  function LogNoContext(st: State, level: Level, msg: string, fields: seq<Field>): (r: Logged)
    ensures r.entry.level == level && r.entry.msg == msg
    ensures r.entry.fields == fields
    ensures r.state.logger == Some(r.entry.logger)
  {
    LogWithContext(st, level, None, msg, fields)
  }

  /** A line logged for a request carries exactly the fields of the same line
      logged without one, plus one field: the request's correlation id under
      the configured header name. */
  lemma ContextAddsOneCorrelationField(st: State, level: Level, c: EchoContext, msg: string, fields: seq<Field>)
    ensures var withC := LogWithContext(st, level, Some(c), msg, fields).entry.fields;
            var without := LogNoContext(st, level, msg, fields).entry.fields;
            |withC| == |without| + 1 &&
            withC[..|without|] == without &&
            withC[|without|] == Field(st.cfg.targetHeader, GetRequestId(st.cfg, c))
  {
  }

  /** The default logger is installed at most once: after any logging call, a
      second call keeps the state and writes through the same handle. */
  lemma LazyInitializationHappensOnce(st: State, l1: Level, c1: Option<EchoContext>, m1: string, f1: seq<Field>,
                                       l2: Level, c2: Option<EchoContext>, m2: string, f2: seq<Field>)
    ensures var first := LogWithContext(st, l1, c1, m1, f1);
            var second := LogWithContext(first.state, l2, c2, m2, f2);
            second.state == first.state && second.entry.logger == first.entry.logger
  {
  }

  /** Logging with no logger installed writes through the default file
      logger, whose file is `<run path>.log/<AppName>.log`. */
  lemma FirstLogUsesDefaultFile(st: State, level: Level, c: Option<EchoContext>, msg: string, fields: seq<Field>)
    requires st.logger.None?
    ensures LogWithContext(st, level, c, msg, fields).entry.logger
            == RotatingFile(GetAppRunPath(st.exeDir) + ".log/" + st.cfg.appName + ".log")
  {
  }
}

=== FILE: request_id.dfy ===
/** Looking up the correlation id of a request. */
module RequestId {
  import opened Framework
  import opened Settings

  /** The correlation id: the request header named by the configuration,
      or, when that is empty, the same header on the response. */
  function GetRequestId(cfg: Config, c: EchoContext): (id: string)
    ensures HeaderGet(c.request, cfg.targetHeader) != "" ==> id == HeaderGet(c.request, cfg.targetHeader)
    ensures HeaderGet(c.request, cfg.targetHeader) == "" ==> id == HeaderGet(c.response, cfg.targetHeader)
    ensures id == "" <==>
              HeaderGet(c.request, cfg.targetHeader) == "" && HeaderGet(c.response, cfg.targetHeader) == ""
  {
    var fromRequest := HeaderGet(c.request, cfg.targetHeader);
    if fromRequest == "" then HeaderGet(c.response, cfg.targetHeader) else fromRequest
  }

  /** Only the configured header matters: headers under other names never
      change the id. */
  lemma GetRequestIdIgnoresOtherHeaders(cfg: Config, c: EchoContext, key: string, v: string)
    requires key != cfg.targetHeader
    ensures GetRequestId(cfg, c.(request := c.request[key := v])) == GetRequestId(cfg, c)
    ensures GetRequestId(cfg, c.(response := c.response[key := v])) == GetRequestId(cfg, c)
  {
  }
}

=== FILE: settings.dfy ===
/** The package-level variables of the library, read at call time by every
    operation, gathered into one explicit record. */
module Settings {

  datatype Config = Config(
    appName: string,          // AppName
    targetHeader: string,     // RequestIDConfig.TargetHeader
    successCode: int,         // DefaultResponseSuccessCode
    failCode: int,            // DefaultResponseFailCode
    successMsg: string,       // DefaultResponseSuccessMsg
    failMsg: string,          // DefaultResponseFailMsg
    routeNotFound: string     // RouteNotFound, the sentinel method name
  )

  /** The values the variables start with. The correlation header comes from
      the framework's default request-id configuration, which is not part of
      this model, so it is a parameter. */
  function DefaultConfig(frameworkRequestIdHeader: string): (cfg: Config)
    ensures cfg.appName == "echop" && cfg.targetHeader == frameworkRequestIdHeader
    ensures cfg.successCode == 0 && cfg.failCode == 1
    ensures cfg.successMsg == "ok" && cfg.failMsg == "fail"
    ensures cfg.routeNotFound == "echo_route_not_found"
  {
    Config("echop", frameworkRequestIdHeader, 0, 1, "ok", "fail", "echo_route_not_found")
  }
}

=== FILE: wrappers.dfy ===
/** Failure-carrying values used throughout the model: Go's `nil`-or-value
    pointers and `(value, error)` returns. */
module Wrappers {

  /** A value that may be absent; `None` plays the role of Go's `nil`. */
  datatype Option<+T> = None | Some(value: T)

  /** The outcome of a step that either produces a value or fails. */
  datatype Result<+T, +E> = Ok(value: T) | Err(error: E)
}
